=== FILE: README.md ===
# Song list: collection handlers and form helpers, in Dafny

This project models the core of a small personal song-list web application:
songs with reference singers, tags and a transposition offset, kept in a
key-value store under keys `song:<id>`.

It models two groups of pure logic:

- The collection API handlers (`app/api/songs/route.ts`).
  - `GET` enumerates the `song:` key namespace and batch-reads the values, skipping keys that have no value.
    It answers the songs newest first, with a stable sort on `createdAt`.
  - `POST` validates the request (400 for a bad name or singer list), cleans every field and writes one key.
    It answers 201 with the stored song. A thrown `TypeError` or a failed store call answers 500.
- Two helpers of the client page (`app/page.tsx`).
  - `formatKey` labels a semitone offset as `+k`, `-k` or 原调 ("original key").
  - The add-song form splits the singer and tag inputs on `,` or `，`, trims the pieces and drops empty ones.
    Singer lists are displayed joined with `", "`.

Modules, one per component:

- `Options` (`options.dfy`): `Option`.
- `Text` (`text.dfy`): JavaScript `trim` over the ECMAScript white-space set.
- `CommaList` (`comma_list.dfy`): split, parse, join, and the server-side list clean-up.
- `KeyLabel` (`key_label.dfy`): `formatKey` and a reader of its labels.
- `Js` (`json.dfy`): JSON values, field access, truthiness, and the `TypeError` of calling a missing method.
- `SongModel` (`song.dfy`): `Song`, the store, the key scheme and the response envelope.
- `NewestFirst` (`newest_first.dfy`): the stable newest-first sort.
- `SongsRoute` (`songs_route.dfy`): the `GET` and `POST` handlers.
- `AddSong` (`add_song.dfy`): the form's request and what `POST` makes of it.

The store is a `map<string, Song>`. The parameters of the model stand in for:

- the fresh UUID and the clock (`id`, `now`, with `createdAt` an integer);
- the reply to `KEYS song:*` (`keys`);
- the store as the pipelined reads see it (`snapshot`, so keys deleted in between dangle);
- a failed store call (`fault`, its message).

## Model

| member | source | states |
|---|---|---|
| `Text.TrimStart` | app/page.tsx:36 | the result does not begin with white space and is no longer than the input |
| `Text.TrimStartSuffix` | app/page.tsx:36 | what the front trim keeps is a suffix of the input, and everything it cut off is white space |
| `Text.TrimEnd` | app/page.tsx:36 | the result does not end with white space, is no longer than the input, and starts where the input starts |
| `Text.TrimEndPrefix` | app/page.tsx:36 | what the back trim keeps is a prefix of the input, and everything it cut off is white space |
| `Text.Trim` | app/api/songs/route.ts:73 | `trim()` leaves no white space at either end and never lengthens the text |
| `Text.TrimSlice` | app/api/songs/route.ts:73 | `trim()` yields a slice of the input, and only blank text is cut off on either side |
| `Text.TrimEmptyIffBlank` | app/api/songs/route.ts:56 | `s.trim()` is empty (falsy) exactly when every character of `s` is white space |
| `Text.TrimIdempotent` | app/page.tsx:36 | trimming twice is trimming once |
| `Text.TrimOfTrimmed` | app/page.tsx:36 | a text with no white space at either end is left as it is by `trim` |
| `Text.TrimChars` | app/page.tsx:36 | every character of the trimmed text occurs in the input |
| `Text.TrimBlankPrefix` | app/page.tsx:36 | white space put in front of a trimmed text is removed again by `trim` |
| `CommaList.Split` | app/page.tsx:36 | `split(/[,，]/)` gives one piece more than there are separators, no piece holds a separator, and the pieces concatenated are the input with the separators removed |
| `CommaList.DropEmpty` | app/page.tsx:36 | `filter(s => s)` keeps every non-empty entry exactly as often as it occurs and no empty one, never lengthens the list, and leaves a list with no empty entry unchanged |
| `CommaList.SelectOrder` | app/page.tsx:36 | a filter, once its callback has been evaluated, yields the flagged entries at strictly increasing positions of the input and leaves none of them out |
| `CommaList.DropEmptyOrder` | app/page.tsx:36 | `filter(s => s)` yields the non-empty entries in their input order, at strictly increasing positions, with none left out |
| `CommaList.Parse` | app/page.tsx:36-37 | every parsed entry is non-empty, has no white space at either end and contains neither `,` nor `，` |
| `CommaList.SplitAtSeparator` | app/page.tsx:36 | splitting at a separator splits the text on either side independently |
| `CommaList.SplitDisplay` | app/page.tsx:284 | splitting the `", "`-joined text of comma-free entries yields the entries, each after the first led by one space |
| `CommaList.Join` | app/page.tsx:284 | `join(sep)` of no entries is empty, of one entry is that entry, and otherwise the text starts with the first entry |
| `CommaList.JoinSnoc` | app/page.tsx:284 | appending an entry appends the separator and then the entry, so with the one-entry case every joined text is fixed: the entries in order with exactly `sep` between neighbours |
| `CommaList.JoinLength` | app/page.tsx:284 | the joined text is as long as the entries plus one separator fewer than there are entries |
| `CommaList.ParseDisplay` | app/page.tsx:284 | round trip: for entries that are non-empty, trimmed and comma-free, parsing their `join(', ')` display gives the same list back |
| `CommaList.ParseDisplayParsed` | app/page.tsx:333 | a list the form parsed survives being displayed with `join(', ')` and parsed again |
| `CommaList.ParseBlank` | app/page.tsx:36-37 | a blank input parses to the empty list |
| `CommaList.ParseSingle` | app/page.tsx:36-37 | a non-blank input with no comma parses to the one-element list of its trimmed text |
| `CommaList.KeepNonBlank` | app/api/songs/route.ts:74 | `filter(s => s.trim())` holds exactly the entries that are not blank and never lengthens the list |
| `CommaList.KeepNonBlankCount` | app/api/songs/route.ts:74 | `filter(s => s.trim())` keeps every non-blank entry exactly as often as it occurs, and no blank one |
| `CommaList.KeepNonBlankOrder` | app/api/songs/route.ts:74 | `filter(s => s.trim())` yields the non-blank entries in their input order, at strictly increasing positions, with none left out |
| `CommaList.Normalise` | app/api/songs/route.ts:74-75 | the server's clean-up yields no empty and no untrimmed entry and never lengthens the list |
| `CommaList.NormaliseIsTrimThenDrop` | app/api/songs/route.ts:74 | the server's filter-then-trim gives the same list as the client's trim-then-filter |
| `CommaList.NormaliseParsed` | app/page.tsx:36-44 | the server's clean-up leaves a list produced by the client parser unchanged (idempotence across client and server) |
| `CommaList.CleanEntries` | app/page.tsx:36-37 | trimming and dropping empty entries leaves a list of parser entries exactly as it is |
| `CommaList.CleanBlanks` | app/api/songs/route.ts:74 | a list of blank entries cleans to the empty list |
| `KeyLabel.Decimal` | app/page.tsx:96 | the numeral of a natural number has at least one digit, no leading zero (zero prints as `0`), and reads back as the number |
| `KeyLabel.IntText` | app/page.tsx:97 | `${k}` is the decimal numeral of `k` with no leading zero (just `0` for zero), preceded by `-` exactly when `k` is negative |
| `KeyLabel.FormatKey` | app/page.tsx:95-99 | a positive offset reads `+` then its decimal numeral without leading zero; a negative one reads `-` then the numeral of its magnitude, without leading zero; the label is 原调 exactly when the offset is 0 |
| `KeyLabel.ReadFormattedKey` | app/page.tsx:95-99 | every label reads back as the offset it was made from |
| `KeyLabel.FormatKeyInjective` | app/page.tsx:95-99 | distinct offsets never share a label |
| `Js.Texts` | app/api/songs/route.ts:74 | calling `trim` on every element succeeds exactly when all elements are strings, and then yields their texts in order |
| `SongModel.SongKey` | app/api/songs/route.ts:82 | a song is written under `song:` followed by its id, a key the `song:*` listing pattern matches |
| `SongModel.SongKeyInjective` | app/api/songs/route.ts:82 | distinct ids are written under distinct keys |
| `NewestFirst.Insert` | app/api/songs/route.ts:36 | inserting into a newest-first list keeps it newest first and makes it one song longer, headed by the new song or the old head |
| `NewestFirst.InsertPermutes` | app/api/songs/route.ts:36 | inserting adds exactly the one song: the multiset of songs grows by it and by nothing else |
| `NewestFirst.Sort` | app/api/songs/route.ts:36 | the sorted list is a permutation of the input with `createdAt` non-increasing |
| `NewestFirst.InsertStable` | app/api/songs/route.ts:36 | among the songs created at any one time, the inserted song lands in front of those already in the list, whose order is kept |
| `NewestFirst.SortStable` | app/api/songs/route.ts:36 | stability: songs with equal `createdAt` keep their input order |
| `SongsRoute.FetchAll` | app/api/songs/route.ts:21-33 | the batch read yields exactly the values of enumerated keys that have one, never more songs than keys, and as many songs as keys when no key dangles |
| `SongsRoute.FetchAllCount` | app/api/songs/route.ts:21-33 | the batch read holds each song exactly as many times as there are keys whose value it is |
| `SongsRoute.FetchAllOrder` | app/api/songs/route.ts:21-33 | the batch read yields the values of the keys that have one at strictly increasing key positions, and every such key is among those positions |
| `SongsRoute.List` | app/api/songs/route.ts:9-48 | a store failure answers 500 with its message. Otherwise the answer is 200 with a permutation of the fetched songs, newest first and stable among equal times |
| `SongsRoute.ListContents` | app/api/songs/route.ts:21-33 | a listing holds exactly the songs found under the enumerated keys, each once per key that holds it; dangling keys are dropped, nothing is added or repeated, and there are at most as many songs as keys |
| `SongsRoute.ListEmptyNamespace` | app/api/songs/route.ts:11-18 | when no key has the `song:` prefix the listing is a success with an empty list |
| `SongsRoute.ListWholeStore` | app/api/songs/route.ts:11-33 | listing an unchanged store returns every song stored under a `song:` key, as many songs as song keys, each as many times as there are song keys holding it |
| `SongsRoute.CheckName` | app/api/songs/route.ts:56-61 | a missing, falsy or blank name is a 400 with the name message. A truthy non-string has no `trim` and answers 500 with the `TypeError`. Only a non-blank string passes, unchanged |
| `SongsRoute.CheckSingers` | app/api/songs/route.ts:63-68 | only a non-empty array passes; anything else is a 400 with the singer message; the elements are not inspected |
| `SongsRoute.CleanArray` | app/api/songs/route.ts:74 | an array cleans without throwing exactly when all elements are strings, to their trimmed non-blank texts in order |
| `SongsRoute.CleanTags` | app/api/songs/route.ts:75 | falsy tags give `[]`. Other tags clean without throwing exactly when they are an array of strings, to their trimmed non-blank texts |
| `SongsRoute.CleanNotes` | app/api/songs/route.ts:77 | missing, null and blank notes are absent, a string is kept trimmed and non-empty, and any other value throws |
| `SongsRoute.MakeSong` | app/api/songs/route.ts:54-80 | once both guards have passed, the record builds exactly when the body is accepted. It then carries the supplied id and time, the trimmed name, the cleaned singers and tags, the key or 0, the notes and `featured === true` |
| `SongsRoute.Post` | app/api/songs/route.ts:51-94 | the answer is 201, 400 or 500. It is 201 exactly when the body is accepted and the write succeeds; then the cleaned song is stored under `song:<id>`, returned, and every other key is unchanged. A null body answers 500, and a bad name or singer list answers 400 with its message; a 400 carries no other message. A truthy non-string name, and a body that passes both guards but is not accepted (a non-string singer, tags that are not an array of strings, notes of another type), throw and answer 500 with the `TypeError`. Every non-201 answer leaves the store unchanged |
| `SongsRoute.PostWrite` | app/api/songs/route.ts:82-87 | an accepted body answers 201, and the new store is the old one with `song:<id>` set to the returned song |
| `SongsRoute.PostFreshId` | app/api/songs/route.ts:70-82 | with a fresh id, creating an accepted body adds exactly one key to the store |
| `SongsRoute.PostBlankSingers` | app/api/songs/route.ts:63-74 | an accepted body whose singers are all blank is stored with `singers = []` |
| `SongsRoute.ListAfterPost` | app/api/songs/route.ts:11-82 | the song created from an accepted body appears in the next listing of the store it was written to |
| `AddSong.Strings` | app/page.tsx:39-49 | the form's string lists serialise as arrays of strings whose texts are the list |
| `AddSong.Request` | app/page.tsx:36-49 | the form sends the name as typed, the parsed singer and tag entries as arrays of strings, the key as a number, and no notes and no featured field |
| `AddSong.Body` | app/page.tsx:39-44 | the request object carries name, singers, tags and key, and neither notes nor featured |
| `AddSong.FormAccepted` | app/page.tsx:36-44 | a form request with a non-blank name and at least one singer entry passes every check of the handler |
| `AddSong.FormCleaned` | app/api/songs/route.ts:70-80 | the handler's clean-up of a form request keeps the parsed singers and tags as they are, trims the name, and sets no notes and no featured flag |
| `AddSong.AddSongBlankName` | app/page.tsx:31-50 | a form with a blank name is refused with the name message and the store is untouched |
| `AddSong.AddSongNoSinger` | app/page.tsx:36-50 | a form whose singer input parses to no entry sends an empty array, is refused with the singer message, and leaves the store untouched |
| `AddSong.AddSongCreated` | app/page.tsx:36-50 | otherwise the stored song has the trimmed name, exactly the parsed singers and tags, the chosen key, no notes, and is not featured; it is written under its own key |

## Behaviour worth noting

- The singer guard (`app/api/songs/route.ts:63-68`) looks at the raw array only. A non-empty array of blank names passes it, and the clean-up at `app/api/songs/route.ts:74` then stores the song with no singer (`SongsRoute.PostBlankSingers`).
- The listing is sorted by `createdAt`, newest first, with a stable sort (`app/api/songs/route.ts:36`).
- `featured` is true only for the JSON value `true`, not for any other truthy value (`app/api/songs/route.ts:78`).

## Left out

- `app/api/songs/[id]/route.ts` (single-song `GET`, `PUT`, `DELETE`) is not part of this model.
- The Redis client, the pipeline round trip and network failures are replaced by a map plus `fault` parameters. A failed write is taken as not applied.
- Redis returns `KEYS` in no fixed order, so the key sequence is a parameter that `Enumerates` relates to the store.
- UUID generation and `new Date()` are parameters. `createdAt` is an integer, not an ISO-8601 string, because the listing only compares the parsed times.
- A request body that is not valid JSON (`request.json()` throwing, a 500) is not modelled. The handler receives an already parsed value.
- JSON numbers are integers, because the form only produces whole offsets. Fractions, `NaN` and `-0` are not modelled.
- The text of a thrown `TypeError` is the JavaScript engine's. The model answers with the fixed text `TypeError`.
- Strings are sequences of code points rather than UTF-16 units. Every character `trim` removes lies in the Basic Multilingual Plane, so no modelled result changes.
- `KeyLabel.FormatKey`: prints every integer as a plain decimal. JavaScript switches to exponent notation from magnitude 10^21, far outside any transposition offset.
- React state, rendering, `fetch`, `alert` and `confirm` of `app/page.tsx` are left out.
- `scripts/import_songs.py` (file and Redis I/O), `scripts/convert_favicon.py` (image resampling), `app/layout.tsx` (static markup) and `next.config.js` (a UI-only password fallback) are left out.

=== FILE: add_song.dfy ===
/** The add-song form of `app/page.tsx`: the request it sends to
    `POST /api/songs`, and what the handler makes of it. */
module AddSong {
  import opened Options
  import opened Text
  import opened CommaList
  import opened Js
  import opened SongModel
  import opened SongsRoute

  /** A list of texts as a JSON array of strings. */
  function Strings(xs: seq<string>): (r: seq<Json>)
    ensures |r| == |xs| && AllStrings(r)
    ensures Texts(r) == Done(xs)
  {
    if xs == [] then []
    else
      var r := [JString(xs[0])] + Strings(xs[1..]);
      assert r[1..] == Strings(xs[1..]);
      assert [xs[0]] + xs[1..] == xs;
      r
  }

  /** `JSON.stringify({name, singers, tags, key})` with the two list inputs
      run through the comma-list parser: the name as typed, the parsed
      entries as arrays of strings, the key as a number, and no notes and
      no featured field. */
  function Request(name: string, singersInput: string, tagsInput: string, key: int): (r: Json)
    ensures FormFields(r, name, Parse(singersInput), Parse(tagsInput), key)
  {
    Body(name, Parse(singersInput), Parse(tagsInput), key)
  }

  /** The request object `{name, singers, tags, key}`: those four fields,
      and neither notes nor featured. */
  function Body(name: string, singers: seq<string>, tags: seq<string>, key: int): (r: Json)
    ensures FormFields(r, name, singers, tags, key)
  {
    var r := JObject(map[
      "name" := JString(name),
      "singers" := JArray(Strings(singers)),
      "tags" := JArray(Strings(tags)),
      "key" := JNumber(key)]);
    assert r.fields.Keys == {"name", "singers", "tags", "key"};
    r
  }

  /** A blank name is refused with the name message, the store untouched. */
  lemma AddSongBlankName(store: Store, name: string, singersInput: string, tagsInput: string, key: int, id: string, now: int)
    requires IsBlank(name)
    ensures var r := Post(store, Request(name, singersInput, tagsInput, key), id, now, None);
      r.response == Response(400, Failure(NameRequired)) && r.store == store
  {
  }

  /** A singer input with no entry sends an empty array, which is refused
      with the singer message, the store untouched. */
  lemma AddSongNoSinger(store: Store, name: string, singersInput: string, tagsInput: string, key: int, id: string, now: int)
    requires !IsBlank(name) && Parse(singersInput) == []
    ensures var r := Post(store, Request(name, singersInput, tagsInput, key), id, now, None);
      r.response == Response(400, Failure(SingerRequired)) && r.store == store
  {
  }

  /** The fields of a request as the form sends it. */
  predicate FormFields(body: Json, name: string, singers: seq<string>, tags: seq<string>, key: int)
  {
    && Field(body, "name") == Some(JString(name))
    && Field(body, "singers") == Some(JArray(Strings(singers)))
    && Field(body, "tags") == Some(JArray(Strings(tags)))
    && Field(body, "key") == Some(JNumber(key))
    && Field(body, "notes") == None
    && Field(body, "featured") == None
  }

  /** A form request with a non-blank name and at least one singer entry
      passes every check of the handler. */
  lemma FormAccepted(body: Json, name: string, singers: seq<string>, tags: seq<string>, key: int)
    requires FormFields(body, name, singers, tags, key)
    requires !IsBlank(name) && singers != []
    ensures Accepted(body)
  {
  }

  /** The handler's clean-up of a form request changes none of its entries. */
  lemma FormCleaned(song: Song, body: Json, name: string, singers: seq<string>, tags: seq<string>, key: int, id: string, now: int)
    requires FormFields(body, name, singers, tags, key)
    requires !IsBlank(name) && singers != [] && AllEntries(singers) && AllEntries(tags)
    requires Accepted(body) && CleanedFrom(song, body, id, now)
    ensures song == Song(id, Trim(name), singers, tags, key, None, false, now)
  {
    CleanEntries(singers);
    CleanEntries(tags);
  }

  /** Otherwise the stored and returned song holds the trimmed name, exactly
      the parsed singers and tags, the chosen key, no notes, and is not
      featured; it is written under its own key. */
  lemma AddSongCreated(store: Store, name: string, singersInput: string, tagsInput: string, key: int, id: string, now: int)
    requires !IsBlank(name) && Parse(singersInput) != []
    ensures var r := Post(store, Request(name, singersInput, tagsInput, key), id, now, None);
      && r.response.status == 201
      && r.response.body.data == Song(id, Trim(name), Parse(singersInput), Parse(tagsInput), key, None, false, now)
      && r.store == store[SongKey(id) := r.response.body.data]
  {
    var singers := Parse(singersInput);
    var tags := Parse(tagsInput);
    var body := Body(name, singers, tags, key);
    assert Request(name, singersInput, tagsInput, key) == body;
    FormAccepted(body, name, singers, tags, key);
    var r := Post(store, body, id, now, None);
    assert r.response.status == 201;
    FormCleaned(r.response.body.data, body, name, singers, tags, key, id, now);
    PostWrite(store, body, id, now);
  }
}

=== FILE: comma_list.dfy ===
/** Lists of names typed as one line of text: the client's comma-list parser
    (`app/page.tsx`), the `join(', ')` display of a list, and the server's
    trim-and-drop-blank clean-up of an incoming list (`app/api/songs/route.ts`). */
module CommaList {
  import opened Text

  /** The character class `[,，]`: ASCII comma or FULLWIDTH COMMA (U+FF0C). */
  predicate IsSeparator(c: char)
  {
    c == ',' || c == '\U{FF0C}'
  }

  predicate SeparatorFree(s: string)
  {
    forall i :: 0 <= i < |s| ==> !IsSeparator(s[i])
  }

  function SeparatorCount(s: string): nat
  {
    if s == [] then 0 else (if IsSeparator(s[0]) then 1 else 0) + SeparatorCount(s[1..])
  }

  function WithoutSeparators(s: string): string
  {
    if s == [] then [] else (if IsSeparator(s[0]) then [] else [s[0]]) + WithoutSeparators(s[1..])
  }

  function Concat(parts: seq<string>): string
  {
    if parts == [] then [] else parts[0] + Concat(parts[1..])
  }

  /** `s.split(/[,，]/)`: one piece more than there are separators, no piece
      holds a separator, and the pieces put back together are `s` with its
      separators taken out. The empty string splits into one empty piece. */
  function Split(s: string): (parts: seq<string>)
    ensures |parts| == SeparatorCount(s) + 1
    ensures forall i :: 0 <= i < |parts| ==> SeparatorFree(parts[i])
    ensures Concat(parts) == WithoutSeparators(s)
  {
    if s == [] then
      [[]]
    else if IsSeparator(s[0]) then
      var rest := Split(s[1..]);
      assert Concat([[]] + rest) == Concat(rest);
      [[]] + rest
    else
      var rest := Split(s[1..]);
      var parts := [[s[0]] + rest[0]] + rest[1..];
      assert parts[1..] == rest[1..];
      assert Concat(rest) == rest[0] + Concat(rest[1..]);
      assert Concat(parts) == [s[0]] + rest[0] + Concat(rest[1..]);
      parts
  }

  /** `xs.map(s => s.trim())` */
  function TrimAll(xs: seq<string>): (r: seq<string>)
    ensures |r| == |xs|
    ensures forall i :: 0 <= i < |r| ==> r[i] == Trim(xs[i])
  {
    seq(|xs|, i requires 0 <= i < |xs| => Trim(xs[i]))
  }

  /** `xs.filter(s => s)`: the non-empty entries, each as often as in `xs`;
      `DropEmptyOrder` adds that they keep their order. */
  function DropEmpty(xs: seq<string>): (r: seq<string>)
    ensures |r| <= |xs|
    ensures forall x :: x in r <==> x in xs && x != []
    ensures forall x :: multiset(r)[x] == (if x == [] then 0 else multiset(xs)[x])
    ensures (forall i :: 0 <= i < |xs| ==> xs[i] != []) ==> r == xs
  {
    if xs == [] then []
    else
      assert xs == [xs[0]] + xs[1..];
      if xs[0] == [] then DropEmpty(xs[1..])
      else [xs[0]] + DropEmpty(xs[1..])
  }

  /** `r` is the subsequence of `xs` at the strictly increasing positions
      `f`. */
  predicate Picks<T(==)>(r: seq<T>, xs: seq<T>, f: seq<nat>)
  {
    && |f| == |r|
    && (forall i :: 0 <= i < |f| ==> f[i] < |xs| && r[i] == xs[f[i]])
    && (forall i, j :: 0 <= i < j < |f| ==> f[i] < f[j])
  }

  /** The entries of `xs` whose flag in `keep` is set, in their order: what
      `filter` returns once its callback has been evaluated on every entry. */
  function Select<T>(xs: seq<T>, keep: seq<bool>): seq<T>
    requires |keep| == |xs|
  {
    if xs == [] then [] else (if keep[0] then [xs[0]] else []) + Select(xs[1..], keep[1..])
  }

  /** The positions of a subsequence of the tail, as positions in the whole. */
  function Shift(f: seq<nat>): (g: seq<nat>)
    ensures |g| == |f| && forall i :: 0 <= i < |f| ==> g[i] == f[i] + 1
  {
    seq(|f|, i requires 0 <= i < |f| => f[i] + 1)
  }

  lemma ShiftHas(g: seq<nat>, j: nat)
    requires j in g
    ensures j + 1 in Shift(g) && j + 1 in [0] + Shift(g)
  {
    var i :| 0 <= i < |g| && g[i] == j;
    assert Shift(g)[i] == j + 1;
    assert ([0] + Shift(g))[i + 1] == j + 1;
  }

  /** A subsequence of the tail is a subsequence of the whole, with or
      without the head in front. */
  lemma PicksCons<T>(xs: seq<T>, r: seq<T>, f: seq<nat>)
    requires xs != [] && Picks(r, xs[1..], f)
    ensures Picks(r, xs, Shift(f))
    ensures Picks([xs[0]] + r, xs, [0] + Shift(f))
  {
  }

  /** `Select` keeps the flagged entries in the order they come in, and
      leaves none of them out. */
  lemma {:induction false} SelectOrder<T>(xs: seq<T>, keep: seq<bool>) returns (f: seq<nat>)
    requires |keep| == |xs|
    ensures Picks(Select(xs, keep), xs, f)
    ensures forall j :: 0 <= j < |xs| && keep[j] ==> j in f
    decreases |xs|
  {
    if xs == [] {
      f := [];
    } else {
      var g := SelectOrder(xs[1..], keep[1..]);
      var tail := Select(xs[1..], keep[1..]);
      PicksCons(xs, tail, g);
      if keep[0] {
        assert Select(xs, keep) == [xs[0]] + tail;
        f := [0] + Shift(g);
        assert f[0] == 0;
      } else {
        assert Select(xs, keep) == tail;
        f := Shift(g);
      }
      forall j | 0 < j < |xs| && keep[j]
        ensures j in f
      {
        assert keep[1..][j - 1] == keep[j];
        ShiftHas(g, j - 1);
      }
    }
  }

  /** The flags of `filter(s => s)`: which entries are non-empty. */
  function NonEmptyFlags(xs: seq<string>): (keep: seq<bool>)
    ensures |keep| == |xs| && forall i :: 0 <= i < |xs| ==> (keep[i] <==> xs[i] != [])
  {
    seq(|xs|, i requires 0 <= i < |xs| => xs[i] != [])
  }

  lemma {:induction false} DropEmptySelects(xs: seq<string>)
    ensures DropEmpty(xs) == Select(xs, NonEmptyFlags(xs))
  {
    if xs != [] {
      DropEmptySelects(xs[1..]);
      assert NonEmptyFlags(xs)[1..] == NonEmptyFlags(xs[1..]);
    }
  }

  /** Order: `filter(s => s)` keeps the non-empty entries in the order they
      come in, and leaves none of them out. */
  lemma DropEmptyOrder(xs: seq<string>) returns (f: seq<nat>)
    ensures Picks(DropEmpty(xs), xs, f)
    ensures forall j :: 0 <= j < |xs| && xs[j] != [] ==> j in f
  {
    DropEmptySelects(xs);
    f := SelectOrder(xs, NonEmptyFlags(xs));
  }

  /** An entry as the parser hands it out: non-empty, trimmed, comma-free. */
  predicate IsEntry(s: string)
  {
    s != [] && IsTrimmed(s) && SeparatorFree(s)
  }

  predicate AllEntries(xs: seq<string>)
  {
    forall i :: 0 <= i < |xs| ==> IsEntry(xs[i])
  }

  lemma TrimKeepsSeparatorFree(s: string)
    requires SeparatorFree(s)
    ensures SeparatorFree(Trim(s))
  {
    var r := Trim(s);
    forall k | 0 <= k < |r|
      ensures !IsSeparator(r[k])
    {
      TrimChars(s, r[k]);
    }
  }

  /** The inline parser of the add-song form:
      `input.split(/[,，]/).map(s => s.trim()).filter(s => s)`.
      Every entry it yields is non-empty, trimmed and comma-free. */
  function Parse(input: string): (r: seq<string>)
    ensures AllEntries(r)
  {
    ParsedEntries(input);
    DropEmpty(TrimAll(Split(input)))
  }

  lemma ParsedEntries(input: string)
    ensures AllEntries(DropEmpty(TrimAll(Split(input))))
  {
    var pieces := Split(input);
    var trimmed := TrimAll(pieces);
    var r := DropEmpty(trimmed);
    forall i | 0 <= i < |r|
      ensures IsEntry(r[i])
    {
      assert r[i] in r;
      var j :| 0 <= j < |trimmed| && trimmed[j] == r[i];
      TrimKeepsSeparatorFree(pieces[j]);
    }
  }

  /** The total length of the entries. */
  function Lengths(xs: seq<string>): nat
  {
    if xs == [] then 0 else |xs[0]| + Lengths(xs[1..])
  }

  /** `xs.join(sep)`: the entries in order with one `sep` between each two
      neighbours. It starts with the first entry; `JoinSnoc` adds that each
      further entry comes after one more separator, and `JoinLength` counts
      the characters. */
  function Join(xs: seq<string>, sep: string): (r: string)
    ensures xs == [] ==> r == []
    ensures |xs| == 1 ==> r == xs[0]
    ensures xs != [] ==> xs[0] <= r
    decreases |xs|
  {
    if |xs| == 0 then []
    else if |xs| == 1 then xs[0]
    else xs[0] + sep + Join(xs[1..], sep)
  }

  /** Appending an entry appends the separator and then the entry: with
      `Join([x], sep) == x` this fixes the joined text for every list. */
  lemma {:induction false} JoinSnoc(xs: seq<string>, y: string, sep: string)
    requires xs != []
    ensures Join(xs + [y], sep) == Join(xs, sep) + sep + y
    decreases |xs|
  {
    if |xs| == 1 {
      assert (xs + [y])[1..] == [y];
    } else {
      JoinSnoc(xs[1..], y, sep);
      assert (xs + [y])[1..] == xs[1..] + [y];
      assert Join(xs + [y], sep) == xs[0] + sep + (Join(xs[1..], sep) + sep + y);
    }
  }

  /** The joined text is as long as the entries plus one separator fewer
      than there are entries. */
  lemma {:induction false} JoinLength(xs: seq<string>, sep: string)
    ensures |Join(xs, sep)| == Lengths(xs) + (if xs == [] then 0 else (|xs| - 1) * |sep|)
    decreases |xs|
  {
    if |xs| >= 2 {
      JoinLength(xs[1..], sep);
      assert (|xs| - 1) * |sep| == (|xs| - 2) * |sep| + |sep|;
    } else if |xs| == 1 {
      assert Lengths(xs[1..]) == 0;
    }
  }

  /** The separator the song list and the detail panel display entries with. */
  const DisplaySeparator: string := ", "

  /** The same text, each entry preceded by one space. */
  function Pad(xs: seq<string>): (r: seq<string>)
    ensures |r| == |xs|
    ensures forall i :: 0 <= i < |r| ==> r[i] == " " + xs[i]
  {
    seq(|xs|, i requires 0 <= i < |xs| => " " + xs[i])
  }

  /** Splitting at a separator splits the two sides independently. */
  lemma {:induction false} SplitAtSeparator(a: string, c: char, b: string)
    requires IsSeparator(c)
    ensures Split(a + [c] + b) == Split(a) + Split(b)
    decreases |a|
  {
    if a == [] {
      assert a + [c] + b == [c] + b;
      assert ([c] + b)[1..] == b;
    } else {
      assert (a + [c] + b)[0] == a[0];
      assert (a + [c] + b)[1..] == a[1..] + [c] + b;
      SplitAtSeparator(a[1..], c, b);
    }
  }

  /** A comma-free text is one piece. */
  lemma {:induction false} SplitSeparatorFree(s: string)
    requires SeparatorFree(s)
    ensures Split(s) == [s]
    decreases |s|
  {
    if s != [] {
      SplitSeparatorFree(s[1..]);
      assert [s[0]] + s[1..] == s;
    }
  }

  /** Splitting the `", "`-joined display form of comma-free entries gives
      the entries back, all but the first carrying the space of the separator. */
  lemma {:induction false} SplitDisplay(p: string, xs: seq<string>)
    requires SeparatorFree(p)
    requires |xs| >= 1 && forall i :: 0 <= i < |xs| ==> SeparatorFree(xs[i])
    ensures Split(p + Join(xs, DisplaySeparator)) == [p + xs[0]] + Pad(xs[1..])
    decreases |xs|
  {
    if |xs| == 1 {
      assert SeparatorFree(p + xs[0]);
      SplitSeparatorFree(p + xs[0]);
    } else {
      var tail := Join(xs[1..], DisplaySeparator);
      assert p + Join(xs, DisplaySeparator) == (p + xs[0]) + [','] + (" " + tail);
      SplitAtSeparator(p + xs[0], ',', " " + tail);
      assert SeparatorFree(p + xs[0]);
      SplitSeparatorFree(p + xs[0]);
      SplitDisplay(" ", xs[1..]);
      assert xs[1..][1..] == xs[2..];
      assert Pad(xs[1..]) == [" " + xs[1]] + Pad(xs[2..]);
    }
  }

  /** Trimming the pieces of a display gives the entries back. */
  lemma TrimDisplayPieces(xs: seq<string>)
    requires |xs| >= 1 && AllEntries(xs)
    ensures TrimAll([xs[0]] + Pad(xs[1..])) == xs
  {
    var pieces := [xs[0]] + Pad(xs[1..]);
    var trimmed := TrimAll(pieces);
    forall i | 0 <= i < |xs|
      ensures trimmed[i] == xs[i]
    {
      if i == 0 {
        TrimOfTrimmed(xs[0]);
      } else {
        assert pieces[i] == " " + xs[i];
        assert IsBlank(" ");
        TrimBlankPrefix(" ", xs[i]);
      }
    }
  }

  /** Round trip: parsing the `join(', ')` display of a list of entries gives
      the same list back. */
  lemma {:induction false} ParseDisplay(xs: seq<string>)
    requires AllEntries(xs)
    ensures Parse(Join(xs, DisplaySeparator)) == xs
  {
    if xs != [] {
      var text := Join(xs, DisplaySeparator);
      SplitDisplay([], xs);
      assert [] + text == text && [] + xs[0] == xs[0];
      assert Split(text) == [xs[0]] + Pad(xs[1..]);
      TrimDisplayPieces(xs);
      assert forall i :: 0 <= i < |xs| ==> xs[i] != [];
    }
  }

  /** A parsed list survives its display: re-parsing the `join(', ')` text
      of what the form parsed gives the same list. */
  lemma ParseDisplayParsed(input: string)
    ensures Parse(Join(Parse(input), DisplaySeparator)) == Parse(input)
  {
    ParseDisplay(Parse(input));
  }

  /** Blank input parses to the empty list. */
  lemma ParseBlank(input: string)
    requires IsBlank(input)
    ensures Parse(input) == []
  {
    assert SeparatorFree(input);
    SplitSeparatorFree(input);
    TrimEmptyIffBlank(input);
  }

  /** Non-blank input without a comma parses to its trimmed text alone. */
  lemma ParseSingle(input: string)
    requires SeparatorFree(input) && !IsBlank(input)
    ensures Parse(input) == [Trim(input)]
  {
    SplitSeparatorFree(input);
    TrimEmptyIffBlank(input);
  }

  /** `xs.filter(s => s.trim())`: the entries that are not blank.
      `KeepNonBlankCount` adds that each is kept as often as it occurs, and
      `KeepNonBlankOrder` that they keep their order. */
  function KeepNonBlank(xs: seq<string>): (r: seq<string>)
    ensures |r| <= |xs|
    ensures forall x :: x in r <==> x in xs && Trim(x) != []
  {
    if xs == [] then []
    else if Trim(xs[0]) == [] then KeepNonBlank(xs[1..])
    else
      var r := [xs[0]] + KeepNonBlank(xs[1..]);
      assert xs == [xs[0]] + xs[1..];
      r
  }

  /** Count: `filter(s => s.trim())` keeps every non-blank entry as often as
      it occurs, and no blank one. */
  lemma {:induction false} KeepNonBlankCount(xs: seq<string>, x: string)
    ensures multiset(KeepNonBlank(xs))[x] == (if Trim(x) == [] then 0 else multiset(xs)[x])
  {
    if xs != [] {
      KeepNonBlankCount(xs[1..], x);
      assert xs == [xs[0]] + xs[1..];
      if Trim(xs[0]) == [] {
        assert KeepNonBlank(xs) == KeepNonBlank(xs[1..]);
      } else {
        assert KeepNonBlank(xs) == [xs[0]] + KeepNonBlank(xs[1..]);
      }
    }
  }


  /** The flags of `filter(s => s.trim())`: which entries are not blank. */
  function NonBlankFlags(xs: seq<string>): (keep: seq<bool>)
    ensures |keep| == |xs| && forall i :: 0 <= i < |xs| ==> (keep[i] <==> Trim(xs[i]) != [])
  {
    seq(|xs|, i requires 0 <= i < |xs| => Trim(xs[i]) != [])
  }

  lemma {:induction false} KeepNonBlankSelects(xs: seq<string>)
    ensures KeepNonBlank(xs) == Select(xs, NonBlankFlags(xs))
  {
    if xs != [] {
      KeepNonBlankSelects(xs[1..]);
      assert NonBlankFlags(xs)[1..] == NonBlankFlags(xs[1..]);
    }
  }

  /** Order: `filter(s => s.trim())` keeps the non-blank entries in the order
      they come in, and leaves none of them out. */
  lemma KeepNonBlankOrder(xs: seq<string>) returns (f: seq<nat>)
    ensures Picks(KeepNonBlank(xs), xs, f)
    ensures forall j :: 0 <= j < |xs| && Trim(xs[j]) != [] ==> j in f
  {
    KeepNonBlankSelects(xs);
    f := SelectOrder(xs, NonBlankFlags(xs));
  }

  /** The server's clean-up of `singers` and `tags`:
      `xs.filter(s => s.trim()).map(s => s.trim())`. */
  function Normalise(xs: seq<string>): (r: seq<string>)
    ensures |r| <= |xs|
    ensures forall i :: 0 <= i < |r| ==> r[i] != [] && IsTrimmed(r[i])
  {
    var kept := KeepNonBlank(xs);
    var r := TrimAll(kept);
    forall i | 0 <= i < |r|
      ensures r[i] != []
    {
      assert kept[i] in kept;
    }
    r
  }

  /** Filtering the blank entries and then trimming is trimming and then
      filtering the empty ones: the server and the client clean a list alike. */
  lemma {:induction false} NormaliseIsTrimThenDrop(xs: seq<string>)
    ensures Normalise(xs) == DropEmpty(TrimAll(xs))
  {
    if xs != [] {
      var rest := xs[1..];
      NormaliseIsTrimThenDrop(rest);
      assert xs == [xs[0]] + rest;
      TrimAllCons(xs[0], rest);
      if Trim(xs[0]) != [] {
        var kept := KeepNonBlank(rest);
        assert KeepNonBlank(xs) == [xs[0]] + kept;
        TrimAllCons(xs[0], kept);
        DropEmptyCons(Trim(xs[0]), TrimAll(rest));
      } else {
        assert KeepNonBlank(xs) == KeepNonBlank(rest);
        DropEmptyCons(Trim(xs[0]), TrimAll(rest));
      }
    }
  }

  /** Trimming a list trims its head and then its tail. */
  lemma TrimAllCons(x: string, xs: seq<string>)
    ensures TrimAll([x] + xs) == [Trim(x)] + TrimAll(xs)
  {
  }

  /** Dropping empty entries looks at the head, then goes on in the tail. */
  lemma DropEmptyCons(x: string, xs: seq<string>)
    ensures DropEmpty([x] + xs) == (if x == [] then [] else [x]) + DropEmpty(xs)
  {
    assert ([x] + xs)[1..] == xs;
  }

  /** Trimming a list of entries changes nothing. */
  lemma TrimAllEntries(xs: seq<string>)
    requires AllEntries(xs)
    ensures TrimAll(xs) == xs
  {
    var r := TrimAll(xs);
    forall i | 0 <= i < |xs|
      ensures r[i] == xs[i]
    {
      TrimOfTrimmed(xs[i]);
    }
  }

  /** Trimming and dropping empty entries leaves a list of entries as it is. */
  lemma CleanEntries(xs: seq<string>)
    requires AllEntries(xs)
    ensures DropEmpty(TrimAll(xs)) == xs
  {
    TrimAllEntries(xs);
    assert forall i :: 0 <= i < |xs| ==> xs[i] != [];
  }

  /** Cleaning a list of entries changes nothing. */
  lemma NormaliseEntries(xs: seq<string>)
    requires AllEntries(xs)
    ensures Normalise(xs) == xs
  {
    NormaliseIsTrimThenDrop(xs);
    TrimAllEntries(xs);
    assert forall i :: 0 <= i < |xs| ==> xs[i] != [];
  }

  /** Cleaning a list the client parser produced changes nothing. */
  lemma NormaliseParsed(input: string)
    ensures Normalise(Parse(input)) == Parse(input)
  {
    NormaliseEntries(Parse(input));
  }

  /** A list of blank entries cleans to the empty list. */
  lemma {:induction false} CleanBlanks(xs: seq<string>)
    requires forall i :: 0 <= i < |xs| ==> IsBlank(xs[i])
    ensures DropEmpty(TrimAll(xs)) == []
  {
    if xs != [] {
      TrimEmptyIffBlank(xs[0]);
      CleanBlanks(xs[1..]);
      assert TrimAll(xs) == [Trim(xs[0])] + TrimAll(xs[1..]);
      assert TrimAll(xs)[1..] == TrimAll(xs[1..]);
    }
  }
}

=== FILE: json.dfy ===
/** JSON values as the route handlers receive them from `request.json()`,
    and the pieces of JavaScript semantics the handlers lean on. */
module Js {
  import opened Options

  /** A parsed JSON value. Numbers are integral: the handlers only meet
      whole semitone offsets. */
  datatype Json =
    | JNull
    | JBool(b: bool)
    | JNumber(n: int)
    | JString(s: string)
    | JArray(items: seq<Json>)
    | JObject(fields: map<string, Json>)

  /** The result of evaluating an expression that may throw a `TypeError`
      (calling `.trim()` or `.filter()` on a value that lacks it). */
  datatype Eval<+T> = Done(value: T) | TypeError

  /** `v.f` for the field names the handlers read: an object's own field, and
      `undefined` (`None`) for a missing field and for every non-object, whose
      prototypes have no property of those names. */
  function Field(v: Json, f: string): (r: Option<Json>)
    ensures r.Some? <==> v.JObject? && f in v.fields
    ensures r.Some? ==> r.value == v.fields[f]
  {
    if v.JObject? && f in v.fields then Some(v.fields[f]) else None
  }

  /** ECMAScript ToBoolean, `undefined` being `None`. */
  predicate Truthy(v: Option<Json>)
  {
    match v
    case None => false
    case Some(JNull) => false
    case Some(JBool(b)) => b
    case Some(JNumber(n)) => n != 0
    case Some(JString(s)) => s != []
    case Some(_) => true
  }

  /** The falsy JSON values, listed: what `!v` holds of. */
  predicate IsFalsy(v: Option<Json>)
  {
    v.None? || v == Some(JNull) || v == Some(JBool(false)) || v == Some(JNumber(0)) || v == Some(JString([]))
  }

  lemma TruthyIffNotFalsy(v: Option<Json>)
    ensures Truthy(v) <==> !IsFalsy(v)
  {
  }

  predicate AllStrings(items: seq<Json>)
  {
    forall i :: 0 <= i < |items| ==> items[i].JString?
  }

  /** The elements of an array whose callback calls `.trim()` on each of them:
      the texts of the elements when all are strings, a `TypeError` otherwise. */
  function Texts(items: seq<Json>): (r: Eval<seq<string>>)
    ensures r.Done? <==> AllStrings(items)
    ensures r.Done? ==> |r.value| == |items| && forall i :: 0 <= i < |items| ==> r.value[i] == items[i].s
  {
    if items == [] then Done([])
    else if !items[0].JString? then TypeError
    else match Texts(items[1..])
      case TypeError => TypeError
      case Done(rest) => Done([items[0].s] + rest)
  }
}

=== FILE: key_label.dfy ===
/** The transposition label of the song list (`formatKey` in `app/page.tsx`):
    a semitone offset shown as `+k`, `-k`, or 原调 ("original key") for 0. */
module KeyLabel {
  import opened Options

  predicate IsDigit(c: char)
  {
    '0' <= c <= '9'
  }

  predicate IsDigits(s: string)
  {
    forall i :: 0 <= i < |s| ==> IsDigit(s[i])
  }

  /** The value of a string of decimal digits, read most significant first. */
  function DigitsValue(s: string): nat
    requires IsDigits(s)
  {
    if s == [] then 0 else DigitsValue(s[..|s| - 1]) * 10 + (s[|s| - 1] as int - '0' as int)
  }

  function DigitChar(d: nat): (c: char)
    requires d < 10
    ensures IsDigit(c) && c as int - '0' as int == d
  {
    ('0' as int + d) as char
  }

  /** The decimal numeral of `n`, as JavaScript prints an integral number: at
      least one digit, no leading zero, and it reads back as `n`. */
  function Decimal(n: nat): (r: string)
    ensures r != [] && IsDigits(r)
    ensures r[0] == '0' ==> r == "0"
    ensures DigitsValue(r) == n
  {
    if n < 10 then
      var r := [DigitChar(n)];
      assert r[..0] == [];
      r
    else
      var front := Decimal(n / 10);
      var r := front + [DigitChar(n % 10)];
      assert r[..|r| - 1] == front;
      r
  }

  /** Template-literal conversion `${k}` of an integral number: a minus sign
      in front of the magnitude's numeral when negative. */
  function IntText(k: int): (r: string)
    ensures k >= 0 ==> r != [] && IsDigits(r) && DigitsValue(r) == k && (r[0] == '0' ==> r == "0")
    ensures k == 0 ==> r == "0"
    ensures k < 0 ==> |r| >= 2 && r[0] == '-' && IsDigits(r[1..]) && DigitsValue(r[1..]) == -k && r[1] != '0'
  {
    if k < 0 then "-" + Decimal(-k) else Decimal(k)
  }

  const OriginalKey: string := "原调"

  /** `formatKey(k)`: a positive offset reads `+` and its numeral, a negative
      one `-` and the numeral of its magnitude, and zero reads 原调. */
  function FormatKey(k: int): (r: string)
    ensures k > 0 ==> |r| >= 2 && r[0] == '+' && IsDigits(r[1..]) && DigitsValue(r[1..]) == k && r[1] != '0'
    ensures k < 0 ==> |r| >= 2 && r[0] == '-' && IsDigits(r[1..]) && DigitsValue(r[1..]) == -k && r[1] != '0'
    ensures k == 0 <==> r == OriginalKey
  {
    if k > 0 then "+" + IntText(k)
    else if k < 0 then IntText(k)
    else OriginalKey
  }

  /** Reads a label back into its offset; `None` when it is no label. */
  function ReadKey(text: string): (r: Option<int>)
  {
    if text == OriginalKey then Some(0)
    else if |text| >= 2 && text[0] == '+' && IsDigits(text[1..]) then Some(DigitsValue(text[1..]))
    else if |text| >= 2 && text[0] == '-' && IsDigits(text[1..]) then Some(0 - DigitsValue(text[1..]))
    else None
  }

  /** Round trip: every label reads back as the offset it was made from. */
  lemma ReadFormattedKey(k: int)
    ensures ReadKey(FormatKey(k)) == Some(k)
  {
  }

  /** Distinct offsets never share a label. */
  lemma FormatKeyInjective(a: int, b: int)
    requires FormatKey(a) == FormatKey(b)
    ensures a == b
  {
    ReadFormattedKey(a);
    ReadFormattedKey(b);
  }
}

=== FILE: newest_first.dfy ===
/** The order the song listing returns: newest first, by `createdAt`, with
    `Array.prototype.sort`'s stability keeping songs of equal time in the
    order they were fetched. */
module NewestFirst {
  import opened SongModel

  predicate IsNewestFirst(s: seq<Song>)
  {
    forall i, j :: 0 <= i < j < |s| ==> s[i].createdAt >= s[j].createdAt
  }

  /** A song in front of a newest-first list no older than its head keeps
      the list newest first. */
  lemma NewestFirstCons(y: Song, s: seq<Song>)
    requires IsNewestFirst(s) && (s != [] ==> s[0].createdAt <= y.createdAt)
    ensures IsNewestFirst([y] + s)
  {
  }

  /** The tail of a newest-first list is newest first, and no newer than
      its head. */
  lemma NewestFirstTail(s: seq<Song>)
    requires IsNewestFirst(s) && s != []
    ensures IsNewestFirst(s[1..])
    ensures |s| >= 2 ==> s[1].createdAt <= s[0].createdAt
  {
  }

  /** The songs of `s` created at time `t`, in their order in `s`. */
  function CreatedAt(s: seq<Song>, t: int): seq<Song>
  {
    if s == [] then []
    else (if s[0].createdAt == t then [s[0]] else []) + CreatedAt(s[1..], t)
  }

  /** Puts `x` into a newest-first list after every strictly newer song and
      before the songs as old as it. */
  function Insert(x: Song, ys: seq<Song>): (r: seq<Song>)
    requires IsNewestFirst(ys)
    ensures IsNewestFirst(r)
    ensures |r| == |ys| + 1
    ensures r[0] == x || (ys != [] && r[0] == ys[0])
  {
    if ys == [] || ys[0].createdAt <= x.createdAt then
      NewestFirstCons(x, ys);
      [x] + ys
    else
      NewestFirstTail(ys);
      var rest := Insert(x, ys[1..]);
      NewestFirstCons(ys[0], rest);
      [ys[0]] + rest
  }

  /** `songs.sort((a, b) => b.createdAt - a.createdAt)`: the same songs,
      newest first. */
  function Sort(xs: seq<Song>): (r: seq<Song>)
    ensures IsNewestFirst(r)
    ensures multiset(r) == multiset(xs)
    ensures |r| == |xs|
  {
    if xs == [] then []
    else
      assert xs == [xs[0]] + xs[1..];
      InsertPermutes(xs[0], Sort(xs[1..]));
      Insert(xs[0], Sort(xs[1..]))
  }

  /** `Insert` adds exactly `x`: it loses and duplicates nothing. */
  lemma {:induction false} InsertPermutes(x: Song, ys: seq<Song>)
    requires IsNewestFirst(ys)
    ensures multiset(Insert(x, ys)) == multiset(ys) + multiset{x}
    decreases |ys|
  {
    if ys != [] && ys[0].createdAt > x.createdAt {
      InsertBehind(x, ys);
      InsertPermutes(x, ys[1..]);
      assert ys == [ys[0]] + ys[1..];
    } else {
      InsertFront(x, ys);
    }
  }

  /** `CreatedAt` of a list with one more song in front. */
  lemma CreatedAtCons(x: Song, s: seq<Song>, t: int)
    ensures CreatedAt([x] + s, t) == (if x.createdAt == t then [x] else []) + CreatedAt(s, t)
  {
    assert ([x] + s)[1..] == s;
  }

  /** In front of a head no newer than it, `Insert` just prepends. */
  lemma InsertFront(x: Song, ys: seq<Song>)
    requires IsNewestFirst(ys) && (ys == [] || ys[0].createdAt <= x.createdAt)
    ensures Insert(x, ys) == [x] + ys
  {
  }

  /** Behind a strictly newer head, `Insert` goes on in the tail. */
  lemma InsertBehind(x: Song, ys: seq<Song>)
    requires IsNewestFirst(ys) && ys != [] && ys[0].createdAt > x.createdAt
    ensures IsNewestFirst(ys[1..])
    ensures Insert(x, ys) == [ys[0]] + Insert(x, ys[1..])
  {
  }

  /** A song strictly newer than `x` in front of a list keeps its place
      before `x` among the songs created at `t`: the two never share a time. */
  lemma StableBehind(x: Song, ys: seq<Song>, i: seq<Song>, t: int)
    requires ys != [] && ys[0].createdAt > x.createdAt
    requires CreatedAt(i, t) == (if x.createdAt == t then [x] else []) + CreatedAt(ys[1..], t)
    ensures CreatedAt([ys[0]] + i, t) == (if x.createdAt == t then [x] else []) + CreatedAt(ys, t)
  {
    CreatedAtCons(ys[0], i, t);
    var hx := if x.createdAt == t then [x] else [];
    var hy := if ys[0].createdAt == t then [ys[0]] else [];
    var c := CreatedAt(ys[1..], t);
    assert CreatedAt(ys, t) == hy + c;
    if hx == [] {
      assert hx + (hy + c) == hy + c;
    } else {
      assert hy == [];
      assert hy + (hx + c) == hx + c;
    }
  }

  /** The songs `Insert` adds to a newest-first list that were created at
      time `t`: `x` goes in front of the others of its time. */
  lemma {:induction false} InsertStable(x: Song, ys: seq<Song>, t: int)
    requires IsNewestFirst(ys)
    ensures CreatedAt(Insert(x, ys), t) == (if x.createdAt == t then [x] else []) + CreatedAt(ys, t)
    decreases |ys|
  {
    if ys != [] && ys[0].createdAt > x.createdAt {
      InsertBehind(x, ys);
      InsertStable(x, ys[1..], t);
      StableBehind(x, ys, Insert(x, ys[1..]), t);
    } else {
      InsertFront(x, ys);
      CreatedAtCons(x, ys, t);
    }
  }

  /** Stability: among the songs created at the same time, the sorted list
      keeps the order of the input. */
  lemma {:induction false} SortStable(xs: seq<Song>, t: int)
    ensures CreatedAt(Sort(xs), t) == CreatedAt(xs, t)
    decreases |xs|
  {
    if xs != [] {
      SortStable(xs[1..], t);
      InsertStable(xs[0], Sort(xs[1..]), t);
    }
  }
}

=== FILE: options.dfy ===
/** An optional value: a JavaScript `undefined` field, a missing store entry. */
module Options {
  datatype Option<+T> = None | Some(value: T)
}

=== FILE: song.dfy ===
/** The song record (`types/song.ts`, extended with the `notes` and
    `featured` fields the create handler writes), the key-value store it
    lives in, and the response envelope of the API. */
module SongModel {
  import opened Options

  /** One song. `createdAt` is the creation time in milliseconds, the value
      the listing compares. */
  datatype Song = Song(
    id: string,
    name: string,
    singers: seq<string>,
    tags: seq<string>,
    key: int,
    notes: Option<string>,
    featured: bool,
    createdAt: int)

  /** The key-value store: every song under the key `song:<id>`. */
  type Store = map<string, Song>

  const SongPrefix: string := "song:"

  /** The store key of the song `id`: the namespace prefix followed by the id. */
  function SongKey(id: string): (k: string)
    ensures IsSongKey(k) && k[|SongPrefix|..] == id
  {
    SongPrefix + id
  }

  /** The keys the pattern `song:*` matches. */
  predicate IsSongKey(k: string)
  {
    SongPrefix <= k
  }

  /** Distinct ids are stored under distinct keys. */
  lemma SongKeyInjective(a: string, b: string)
    requires SongKey(a) == SongKey(b)
    ensures a == b
  {
  }

  /** `{success: true, data}` or `{success: false, error}`. */
  datatype Envelope<+T> = Success(data: T) | Failure(error: string)

  datatype Response<+T> = Response(status: int, body: Envelope<T>)
}

=== FILE: songs_route.dfy ===
/** The collection handlers of `app/api/songs/route.ts`: `GET` lists every
    song of the store, newest first, and `POST` validates, cleans and stores
    one new song. The store is a map; the id, the clock and store failures
    are parameters. */
module SongsRoute {
  import opened Options
  import opened Text
  import opened CommaList
  import opened Js
  import opened SongModel
  import opened NewestFirst

  const NameRequired: string := "歌曲名称是必填项"
  const SingerRequired: string := "至少需要一个参考歌手"

  /** The message of a thrown `TypeError`; its exact text is the engine's. */
  const TypeErrorMessage: string := "TypeError"

  // ----- GET -----

  /** The reply to `KEYS song:*`: every key of the song namespace, once. */
  ghost predicate Enumerates(keys: seq<string>, store: Store)
  {
    && (forall i, j :: 0 <= i < j < |keys| ==> keys[i] != keys[j])
    && (forall k :: k in keys <==> k in store && IsSongKey(k))
  }

  /** The pipelined batch read: the values of the enumerated keys in key
      order, skipping every key that has no value (a dangling key). Nothing
      is added, so there are at most as many songs as keys, and as many songs
      as keys when no key dangles. */
  function FetchAll(keys: seq<string>, store: Store): (r: seq<Song>)
    ensures |r| <= |keys|
    ensures forall s :: s in r <==> exists i :: 0 <= i < |keys| && keys[i] in store && store[keys[i]] == s
    ensures (forall i :: 0 <= i < |keys| ==> keys[i] in store) ==> |r| == |keys|
  {
    if keys == [] then []
    else
      var rest := FetchAll(keys[1..], store);
      assert forall i :: 1 <= i < |keys| ==> keys[i] == keys[1..][i - 1];
      (if keys[0] in store then [store[keys[0]]] else []) + rest
  }

  /** How many of the enumerated keys hold the song `s`. */
  function KeysHolding(keys: seq<string>, store: Store, s: Song): nat
  {
    if keys == [] then 0
    else (if keys[0] in store && store[keys[0]] == s then 1 else 0) + KeysHolding(keys[1..], store, s)
  }

  /** Count: the batch read yields each song once for every enumerated key
      that holds it, and never otherwise. */
  lemma {:induction false} FetchAllCount(keys: seq<string>, store: Store, s: Song)
    ensures multiset(FetchAll(keys, store))[s] == KeysHolding(keys, store, s)
  {
    if keys != [] {
      FetchAllCount(keys[1..], store, s);
    }
  }

  /** `r` holds the values of the keys at the strictly increasing positions
      `f` of `keys`. */
  predicate ReadsAt(r: seq<Song>, keys: seq<string>, store: Store, f: seq<nat>)
  {
    && |f| == |r|
    && (forall i :: 0 <= i < |f| ==> f[i] < |keys| && keys[f[i]] in store && r[i] == store[keys[f[i]]])
    && (forall i, j :: 0 <= i < j < |f| ==> f[i] < f[j])
  }

  /** Reads of the tail's keys are reads of the whole key list, with or
      without the first key's value in front. */
  lemma ReadsAtCons(keys: seq<string>, store: Store, r: seq<Song>, f: seq<nat>)
    requires keys != [] && ReadsAt(r, keys[1..], store, f)
    ensures ReadsAt(r, keys, store, Shift(f))
    ensures keys[0] in store ==> ReadsAt([store[keys[0]]] + r, keys, store, [0] + Shift(f))
  {
  }

  /** Order: the batch read yields the value of each enumerated key that has
      one, in key order, and leaves none of them out. */
  lemma {:induction false} FetchAllOrder(keys: seq<string>, store: Store) returns (f: seq<nat>)
    ensures ReadsAt(FetchAll(keys, store), keys, store, f)
    ensures forall j :: 0 <= j < |keys| && keys[j] in store ==> j in f
  {
    if keys == [] {
      f := [];
    } else {
      var g := FetchAllOrder(keys[1..], store);
      var tail := FetchAll(keys[1..], store);
      ReadsAtCons(keys, store, tail, g);
      if keys[0] in store {
        assert FetchAll(keys, store) == [store[keys[0]]] + tail;
        f := [0] + Shift(g);
        assert f[0] == 0;
      } else {
        assert FetchAll(keys, store) == tail;
        f := Shift(g);
      }
      forall j | 0 < j < |keys| && keys[j] in store
        ensures j in f
      {
        assert keys[1..][j - 1] == keys[j];
        ShiftHas(g, j - 1);
      }
    }
  }

  /** `GET /api/songs`. `keys` is the reply to `KEYS song:*`, `snapshot` the
      store as the pipelined reads see it (a key deleted in between reads as
      absent), and `fault` the message of a failed store call. */
  function List(keys: seq<string>, snapshot: Store, fault: Option<string>): (r: Response<seq<Song>>)
    ensures fault.Some? ==> r == Response(500, Failure(fault.value))
    ensures fault.None? ==> r.status == 200 && r.body.Success?
    ensures fault.None? ==> IsNewestFirst(r.body.data)
    ensures fault.None? ==> multiset(r.body.data) == multiset(FetchAll(keys, snapshot))
    ensures fault.None? ==> forall t :: CreatedAt(r.body.data, t) == CreatedAt(FetchAll(keys, snapshot), t)
  {
    if fault.Some? then
      Response(500, Failure(fault.value))
    else if keys == [] then
      Response(200, Success([]))
    else
      var songs := FetchAll(keys, snapshot);
      forall t
        ensures CreatedAt(Sort(songs), t) == CreatedAt(songs, t)
      {
        SortStable(songs, t);
      }
      Response(200, Success(Sort(songs)))
  }

  /** A successful listing returns exactly the songs found under the
      enumerated keys, each once per key that holds it: dangling keys are
      dropped and nothing is added or repeated. */
  lemma ListContents(keys: seq<string>, snapshot: Store)
    ensures var data := List(keys, snapshot, None).body.data;
      && |data| <= |keys|
      && (forall s :: s in data <==> exists i :: 0 <= i < |keys| && keys[i] in snapshot && snapshot[keys[i]] == s)
      && (forall s :: multiset(data)[s] == KeysHolding(keys, snapshot, s))
  {
    var data := List(keys, snapshot, None).body.data;
    var fetched := FetchAll(keys, snapshot);
    assert |multiset(data)| == |multiset(fetched)|;
    forall s
      ensures multiset(data)[s] == KeysHolding(keys, snapshot, s)
    {
      FetchAllCount(keys, snapshot, s);
    }
    forall s
      ensures s in data <==> s in fetched
    {
      assert s in data <==> s in multiset(data);
      assert s in fetched <==> s in multiset(fetched);
    }
  }

  /** With no key in the song namespace the listing succeeds, empty. */
  lemma ListEmptyNamespace(keys: seq<string>, store: Store, snapshot: Store)
    requires Enumerates(keys, store)
    requires forall k :: k in store ==> !IsSongKey(k)
    ensures List(keys, snapshot, None) == Response(200, Success([]))
  {
    forall k
      ensures k !in multiset(keys)
    {
      assert k in keys <==> k in store && IsSongKey(k);
      assert k in store ==> !IsSongKey(k);
    }
    assert multiset(keys) == multiset{};
  }

  /** Listing an unchanged store returns every song of the namespace, each
      as many times as there are song keys holding it. */
  lemma ListWholeStore(keys: seq<string>, store: Store)
    requires Enumerates(keys, store)
    ensures var data := List(keys, store, None).body.data;
      && |data| == |keys|
      && (forall s :: s in data <==> exists k :: k in store && IsSongKey(k) && store[k] == s)
      && (forall s :: multiset(data)[s] == KeysHolding(keys, store, s))
  {
    ListContents(keys, store);
    var data := List(keys, store, None).body.data;
    forall i | 0 <= i < |keys|
      ensures keys[i] in store
    {
      assert keys[i] in keys;
    }
    forall s
      ensures s in data <==> exists k :: k in store && IsSongKey(k) && store[k] == s
    {
      if exists k :: k in store && IsSongKey(k) && store[k] == s {
        var k :| k in store && IsSongKey(k) && store[k] == s;
        assert k in keys;
        var i :| 0 <= i < |keys| && keys[i] == k;
      }
      if s in data {
        var i :| 0 <= i < |keys| && keys[i] in store && store[keys[i]] == s;
        assert keys[i] in keys;
      }
    }
  }

  // ----- POST -----

  /** The outcome of one guard: pass on with a value, or answer an error. */
  datatype Check<+T> = Pass(value: T) | Reject(status: int, error: string)

  /** `if (!name || !name.trim())`: a missing, falsy or blank name is a 400;
      a truthy value that is not a string has no `trim`, which throws. */
  function CheckName(name: Option<Json>): (r: Check<string>)
    ensures r.Pass? <==> name.Some? && name.value.JString? && !IsBlank(name.value.s)
    ensures r.Pass? ==> r.value == name.value.s
    ensures r == Reject(400, NameRequired) <==> IsFalsy(name) || (name.Some? && name.value.JString? && IsBlank(name.value.s))
    ensures r.Reject? && r.status != 400 ==> r == Reject(500, TypeErrorMessage)
    ensures Truthy(name) && !name.value.JString? ==> r == Reject(500, TypeErrorMessage)
  {
    TruthyIffNotFalsy(name);
    if !Truthy(name) then
      Reject(400, NameRequired)
    else if !name.value.JString? then
      Reject(500, TypeErrorMessage)
    else if Trim(name.value.s) == [] then
      TrimEmptyIffBlank(name.value.s);
      Reject(400, NameRequired)
    else
      TrimEmptyIffBlank(name.value.s);
      Pass(name.value.s)
  }

  /** `if (!singers || !Array.isArray(singers) || singers.length === 0)`:
      anything but a non-empty array is a 400. The elements are not looked
      at, so an array of blank names passes. */
  function CheckSingers(singers: Option<Json>): (r: Check<seq<Json>>)
    ensures r.Pass? <==> singers.Some? && singers.value.JArray? && singers.value.items != []
    ensures r.Pass? ==> r.value == singers.value.items
    ensures r.Reject? ==> r == Reject(400, SingerRequired)
  {
    if !Truthy(singers) || !singers.value.JArray? || |singers.value.items| == 0 then
      Reject(400, SingerRequired)
    else
      Pass(singers.value.items)
  }

  /** `xs.filter(s => s.trim()).map(s => s.trim())` on an array: a
      `TypeError` unless every element is a string. */
  function CleanArray(items: seq<Json>): (r: Eval<seq<string>>)
    ensures r.Done? <==> AllStrings(items)
    ensures r.Done? ==> r.value == DropEmpty(TrimAll(Texts(items).value))
  {
    match Texts(items)
    case TypeError => TypeError
    case Done(texts) =>
      NormaliseIsTrimThenDrop(texts);
      Done(Normalise(texts))
  }

  /** `tags ? tags.filter(…).map(…) : []`: falsy tags are no tags; a truthy
      value that is not an array has no `filter`, which throws. */
  function CleanTags(tags: Option<Json>): (r: Eval<seq<string>>)
    ensures IsFalsy(tags) ==> r == Done([])
    ensures !IsFalsy(tags) ==> (r.Done? <==> tags.value.JArray? && AllStrings(tags.value.items))
    ensures !IsFalsy(tags) && r.Done? ==> r.value == DropEmpty(TrimAll(Texts(tags.value.items).value))
  {
    TruthyIffNotFalsy(tags);
    if !Truthy(tags) then Done([])
    else if !tags.value.JArray? then TypeError
    else CleanArray(tags.value.items)
  }

  /** `notes?.trim() || undefined`: missing, null or blank notes are absent,
      a string is kept trimmed, and any other value has no `trim`, which
      throws. */
  function CleanNotes(notes: Option<Json>): (r: Eval<Option<string>>)
    ensures r.Done? <==> notes.None? || notes.value.JNull? || notes.value.JString?
    ensures r == Done(None) <==> notes.None? || notes.value.JNull? || (notes.value.JString? && IsBlank(notes.value.s))
    ensures r.Done? && r.value.Some? ==> notes.Some? && notes.value.JString? && r.value.value == Trim(notes.value.s) && r.value.value != []
  {
    match notes
    case None => Done(None)
    case Some(JNull) => Done(None)
    case Some(JString(s)) =>
      TrimEmptyIffBlank(s);
      if Trim(s) == [] then Done(None) else Done(Some(Trim(s)))
    case Some(_) => TypeError
  }

  /** `typeof key === 'number' ? key : 0`: a number is kept as it is, and
      anything else, including a missing key, becomes 0. */
  function KeyOf(key: Option<Json>): (r: int)
    ensures key.Some? && key.value.JNumber? ==> r == key.value.n
    ensures !(key.Some? && key.value.JNumber?) ==> r == 0
  {
    if key.Some? && key.value.JNumber? then key.value.n else 0
  }

  /** What the create handler accepts: a non-blank string name, a non-empty
      array of strings for singers, no tags or an array of strings, and notes
      that are missing, null or a string. */
  predicate Accepted(body: Json)
  {
    var name := Field(body, "name");
    var singers := Field(body, "singers");
    var tags := Field(body, "tags");
    var notes := Field(body, "notes");
    && name.Some? && name.value.JString? && !IsBlank(name.value.s)
    && singers.Some? && singers.value.JArray? && singers.value.items != [] && AllStrings(singers.value.items)
    && (IsFalsy(tags) || (tags.value.JArray? && AllStrings(tags.value.items)))
    && (notes.None? || notes.value.JNull? || notes.value.JString?)
  }

  /** The song the create handler stores for an accepted body: the trimmed
      name; singers and tags trimmed with the blank ones dropped, in order
      (no tags when the field is falsy); the number given as key, else 0;
      the trimmed notes unless blank; featured only for an exact `true`. */
  predicate CleanedFrom(song: Song, body: Json, id: string, now: int)
    requires Accepted(body)
  {
    var name := Field(body, "name");
    var singers := Field(body, "singers");
    var tags := Field(body, "tags");
    var key := Field(body, "key");
    var notes := Field(body, "notes");
    && song.id == id
    && song.createdAt == now
    && song.name == Trim(name.value.s)
    && song.singers == DropEmpty(TrimAll(Texts(singers.value.items).value))
    && song.tags == (if IsFalsy(tags) then [] else DropEmpty(TrimAll(Texts(tags.value.items).value)))
    && song.key == (if key.Some? && key.value.JNumber? then key.value.n else 0)
    && song.notes == (if notes.Some? && notes.value.JString? && !IsBlank(notes.value.s) then Some(Trim(notes.value.s)) else None)
    && (song.featured <==> Field(body, "featured") == Some(JBool(true)))
  }

  /** The record literal of the create handler, once both guards passed. */
  function MakeSong(body: Json, id: string, name: string, singers: seq<Json>, now: int): (r: Eval<Song>)
    requires Field(body, "name") == Some(JString(name)) && !IsBlank(name)
    requires Field(body, "singers") == Some(JArray(singers)) && singers != []
    ensures r.Done? <==> Accepted(body)
    ensures r.Done? ==> CleanedFrom(r.value, body, id, now)
  {
    match CleanArray(singers)
    case TypeError => TypeError
    case Done(cleanSingers) =>
      match CleanTags(Field(body, "tags"))
      case TypeError => TypeError
      case Done(cleanTags) =>
        match CleanNotes(Field(body, "notes"))
        case TypeError => TypeError
        case Done(cleanNotes) =>
          Done(Song(
            id,
            Trim(name),
            cleanSingers,
            cleanTags,
            KeyOf(Field(body, "key")),
            cleanNotes,
            Field(body, "featured") == Some(JBool(true)),
            now))
  }

  /** The new store and the response of one create request. */
  datatype PostResult = PostResult(store: Store, response: Response<Song>)

  /** `POST /api/songs` with the parsed request `body`. `id` stands for the
      fresh UUID, `now` for the clock, `fault` for a failed store write. A
      `null` body cannot be destructured and throws. */
  function Post(store: Store, body: Json, id: string, now: int, fault: Option<string>): (r: PostResult)
    ensures r.response.status in {201, 400, 500}
    ensures r.response.status == 201 <==> r.response.body.Success?
    ensures r.response.status == 201 <==> fault.None? && Accepted(body)
    ensures r.response.status != 201 ==> r.store == store
    ensures r.response.status == 201 ==>
      var song := r.response.body.data;
      && CleanedFrom(song, body, id, now)
      && SongKey(id) in r.store && r.store[SongKey(id)] == song
      && forall k :: k != SongKey(id) ==> (k in r.store <==> k in store) && (k in store ==> r.store[k] == store[k])
    ensures body.JNull? ==> r.response == Response(500, Failure(TypeErrorMessage))
    ensures !body.JNull? && (IsFalsy(Field(body, "name")) || (Field(body, "name").Some? && Field(body, "name").value.JString? && IsBlank(Field(body, "name").value.s)))
      ==> r.response == Response(400, Failure(NameRequired))
    ensures CheckName(Field(body, "name")).Pass? && !(Field(body, "singers").Some? && Field(body, "singers").value.JArray? && Field(body, "singers").value.items != [])
      ==> r.response == Response(400, Failure(SingerRequired))
    ensures fault.Some? && Accepted(body) ==> r.response == Response(500, Failure(fault.value))
    ensures !body.JNull? && Truthy(Field(body, "name")) && !Field(body, "name").value.JString?
      ==> r.response == Response(500, Failure(TypeErrorMessage))
    ensures !body.JNull? && CheckName(Field(body, "name")).Pass? && CheckSingers(Field(body, "singers")).Pass? && !Accepted(body)
      ==> r.response == Response(500, Failure(TypeErrorMessage))
    ensures r.response.status == 400 ==> r.response.body in {Failure(NameRequired), Failure(SingerRequired)}
  {
    if body.JNull? then
      PostResult(store, Response(500, Failure(TypeErrorMessage)))
    else
      match CheckName(Field(body, "name"))
      case Reject(status, error) => PostResult(store, Response(status, Failure(error)))
      case Pass(name) =>
        match CheckSingers(Field(body, "singers"))
        case Reject(status, error) => PostResult(store, Response(status, Failure(error)))
        case Pass(singers) =>
          match MakeSong(body, id, name, singers, now)
          case TypeError => PostResult(store, Response(500, Failure(TypeErrorMessage)))
          case Done(song) =>
            if fault.Some? then
              PostResult(store, Response(500, Failure(fault.value)))
            else
              PostResult(store[SongKey(id) := song], Response(201, Success(song)))
  }

  /** An accepted body is created in one write: the store updated at the
      song's key. */
  lemma PostWrite(store: Store, body: Json, id: string, now: int)
    requires Accepted(body)
    ensures var r := Post(store, body, id, now, None);
      r.response.status == 201 && r.store == store[SongKey(id) := r.response.body.data]
  {
    var r := Post(store, body, id, now, None);
    var expected := store[SongKey(id) := r.response.body.data];
    assert r.store.Keys == expected.Keys;
  }

  /** With an id not yet in use, creating an accepted body adds exactly one
      key. */
  lemma PostFreshId(store: Store, body: Json, id: string, now: int)
    requires SongKey(id) !in store
    requires Accepted(body)
    ensures var after := Post(store, body, id, now, None).store;
      after.Keys == store.Keys + {SongKey(id)} && |after| == |store| + 1
  {
    var after := Post(store, body, id, now, None).store;
    assert after.Keys == store.Keys + {SongKey(id)};
  }

  /** The singers guard looks at the raw array: a non-empty array of blank
      names is accepted and stored with no singer at all. */
  lemma PostBlankSingers(store: Store, body: Json, id: string, now: int)
    requires Accepted(body)
    requires forall i :: 0 <= i < |Field(body, "singers").value.items| ==> IsBlank(Field(body, "singers").value.items[i].s)
    ensures Post(store, body, id, now, None).response.status == 201
    ensures Post(store, body, id, now, None).response.body.data.singers == []
  {
    var texts := Texts(Field(body, "singers").value.items).value;
    CleanBlanks(texts);
  }

  /** The song created from an accepted body shows up in the next listing
      of the store it was written to. */
  lemma ListAfterPost(store: Store, body: Json, id: string, now: int, keys: seq<string>)
    requires Accepted(body)
    requires Enumerates(keys, Post(store, body, id, now, None).store)
    ensures Post(store, body, id, now, None).response.body.data in List(keys, Post(store, body, id, now, None).store, None).body.data
  {
    var after := Post(store, body, id, now, None).store;
    ListContents(keys, after);
    assert SongKey(id) in keys;
    var i :| 0 <= i < |keys| && keys[i] == SongKey(id);
  }
}

=== FILE: text.dfy ===
/** JavaScript's `String.prototype.trim`, over Unicode code points. */
module Text {

  /** The WhiteSpace and LineTerminator code points of ECMAScript (ECMA-262,
      sections 12.2 and 12.3): the characters `trim` strips from both ends. */
  predicate IsSpace(c: char)
  {
    || c == '\t' || c == '\n' || c == '\U{000B}' || c == '\U{000C}' || c == '\r'
    || c == ' ' || c == '\U{00A0}' || c == '\U{1680}'
    || ('\U{2000}' <= c <= '\U{200A}')
    || c == '\U{2028}' || c == '\U{2029}' || c == '\U{202F}' || c == '\U{205F}'
    || c == '\U{3000}' || c == '\U{FEFF}'
  }

  /** Every character is white space; the empty string is blank. */
  predicate IsBlank(s: string)
  {
    forall i :: 0 <= i < |s| ==> IsSpace(s[i])
  }

  /** Neither end of `s` is white space. */
  predicate IsTrimmed(s: string)
  {
    s == [] || (!IsSpace(s[0]) && !IsSpace(s[|s| - 1]))
  }

  /** Drops the white space at the front: what is left does not start with
      white space. */
  function TrimStart(s: string): (r: string)
    ensures |r| <= |s|
    ensures r == [] || !IsSpace(r[0])
    decreases |s|
  {
    if |s| > 0 && IsSpace(s[0]) then TrimStart(s[1..]) else s
  }

  /** What `TrimStart` keeps is a suffix of its input, and all it dropped is
      blank. */
  lemma {:induction false} TrimStartSuffix(s: string)
    ensures var r := TrimStart(s); r == s[|s| - |r|..] && IsBlank(s[..|s| - |r|])
    decreases |s|
  {
    if |s| > 0 && IsSpace(s[0]) {
      TrimStartSuffix(s[1..]);
      var r := TrimStart(s[1..]);
      assert s[..|s| - |r|] == [s[0]] + s[1..][..|s| - 1 - |r|];
    }
  }

  /** Drops the white space at the back: what is left does not end with
      white space. */
  function TrimEnd(s: string): (r: string)
    ensures |r| <= |s|
    ensures r == [] || !IsSpace(r[|r| - 1])
    ensures r != [] ==> r[0] == s[0]
    decreases |s|
  {
    if |s| > 0 && IsSpace(s[|s| - 1]) then TrimEnd(s[..|s| - 1]) else s
  }

  /** What `TrimEnd` keeps is a prefix of its input, and all it dropped is
      blank. */
  lemma {:induction false} TrimEndPrefix(s: string)
    ensures var r := TrimEnd(s); r == s[..|r|] && IsBlank(s[|r|..])
    decreases |s|
  {
    if |s| > 0 && IsSpace(s[|s| - 1]) {
      TrimEndPrefix(s[..|s| - 1]);
      var r := TrimEnd(s[..|s| - 1]);
      assert s[|r|..] == s[..|s| - 1][|r|..] + [s[|s| - 1]];
    }
  }

  /** `s.trim()`: no white space is left at either end, and nothing longer
      than the input. */
  function Trim(s: string): (r: string)
    ensures IsTrimmed(r)
    ensures |r| <= |s|
  {
    TrimEnd(TrimStart(s))
  }

  /** What `trim` returns is a slice of its input, and what it cuts off on
      either side is blank. */
  lemma TrimSlice(s: string) returns (i: nat, j: nat)
    ensures i <= j <= |s|
    ensures Trim(s) == s[i..j] && IsBlank(s[..i]) && IsBlank(s[j..])
  {
    var t := TrimStart(s);
    var r := TrimEnd(t);
    TrimStartSuffix(s);
    TrimEndPrefix(t);
    i := |s| - |t|;
    j := i + |r|;
    assert t == s[i..];
    assert r == t[..|r|] == s[i..j];
    assert s[j..] == t[|r|..];
  }

  /** The trimmed text is empty exactly when the input is blank. */
  lemma TrimEmptyIffBlank(s: string)
    ensures Trim(s) == [] <==> IsBlank(s)
  {
    var r := Trim(s);
    var i, j := TrimSlice(s);
    if r == [] {
      assert i == j;
      forall k | 0 <= k < |s|
        ensures IsSpace(s[k])
      {
        if k < i {
          assert s[k] == s[..i][k];
        } else {
          assert s[k] == s[j..][k - j];
        }
      }
    } else {
      assert s[i] == r[0] && !IsSpace(r[0]);
    }
  }

  /** Trimming text with no white space at either end changes nothing; in
      particular trimming is idempotent. */
  lemma TrimOfTrimmed(s: string)
    requires IsTrimmed(s)
    ensures Trim(s) == s
  {
  }

  lemma TrimIdempotent(s: string)
    ensures Trim(Trim(s)) == Trim(s)
  {
    TrimOfTrimmed(Trim(s));
  }

  /** White space put in front of a trimmed text is trimmed away again. */
  lemma TrimBlankPrefix(p: string, s: string)
    requires IsBlank(p) && IsTrimmed(s)
    ensures Trim(p + s) == s
    decreases |p|
  {
    if p == [] {
      assert p + s == s;
    } else {
      assert (p + s)[1..] == p[1..] + s;
      TrimBlankPrefix(p[1..], s);
      assert TrimStart(p + s) == TrimStart(p[1..] + s);
    }
  }

  /** Every character of the trimmed text comes from the input. */
  lemma TrimChars(s: string, c: char)
    requires c in Trim(s)
    ensures c in s
  {
    var r := Trim(s);
    var i, j := TrimSlice(s);
    var k :| 0 <= k < |r| && r[k] == c;
    assert s[i + k] == c;
  }
}
